=== FILE: README.md ===
# StepperMotor2 motion controller in Dafny

This project models `StepperMotor2`, the controller that drives a 4-coil
stepper motor over a bounded angular range. The controller is polled. It
turns continuously at a commanded speed (`run`), takes single micro-steps
(`step`), makes timed moves to an absolute position with a sine-shaped
ease-in/ease-out (`gotoPosition`), and homes itself against a limit sensor
(`recal` and the calibration sweep that starts every controller).

The model is functional. One immutable `Motor` value holds the controller's
fields: position, travel limit, step size, direction, step delay, the goto
record, the calibration flag, the last-step clock reading and the selected
coil table. Each command is a pure function from one `Motor` to the next.
The poll `move` becomes `Move(s, now, sensor)`:

- `now` is the clock reading that `micros()` would return;
- `sensor` is the limit-sensor level that `digitalRead` would return;
- the coil write, if one happens, is returned as four booleans (`Outcome.coils`).

The modules follow the program's layers:

- `Config`: the constants and coil tables of `StepperMotor2.h`, plus the constructor's travel-limit and step-size arithmetic.
- `Coils`: coil-table indexing and how a pattern becomes four coil levels.
- `IntSqrt`: `isqrt`. A reference `Sqrt` and the digit-by-digit method `Isqrt`, proved equal on every 32-bit input.
- `Ease`: `sineEaseInOut` with its intermediates `aa`, `bb`, `cc`, and the delay limit applied by the poll.
- `StepperMotor2`: the state, the invariant, the constructor, the commands, `writeStepToPins` and `move`.
- `Scenarios`: properties over sequences of calls, and the two findings below.

`Valid` is the invariant of every reachable state. It says:

- the table is one of the two coil tables;
- the direction is -1, 0 or +1;
- outside calibration, `0 <= position <= maxPosition`;
- outside calibration, an active goto lies between its start and a different target, and the motor is either stopped or heading toward the target.

`Init` establishes `Valid` and every operation preserves it. `Step` and
`Move` require it, so they exclude only states the controller can never
reach. `Move` needs it because the ease curve is only meaningful for
`0 <= p <= c`.

Elapsed time is `(now - previous) % 2^32`. This is the source's unsigned
32-bit subtraction, so a clock that wraps is handled. The product at line 319
of `sineEaseInOut` is reduced modulo 2^32, as 32-bit unsigned arithmetic does.

Three behaviours of the code that are easy to miss:

- A goto to the current position still divides by `|target - position|` (StepperMotor2.cpp:162), which is 0 there. At distance 0, `GotoPosition` keeps the previous delay. The direction is then 0, so nothing reads that delay before another command sets it.
- `gotoPosition` is not guarded by calibration (StepperMotor2.cpp:141-172). A goto issued during calibration sets the direction, which then drives the sweep until the sensor trips. The trip issues the 1.5 s return goto.
- An edge stop only clears the direction (StepperMotor2.cpp:131, 270), so an active goto stays recorded. `Move` keeps recomputing its delay while the motor stands still.

## Model

| member | source | states |
|---|---|---|
| Config.MaxPositionFor | StepperMotor2.cpp:60 | the travel limit is the whole number of micro-steps in the requested angle: `r*360 <= 512*n*angle < (r+1)*360` |
| Config.StepSizeFor | StepperMotor2.cpp:61 | the step size is 360e6 microdegrees divided by `512*n` micro-steps per turn, rounded down |
| Config.TableSelection | StepperMotor2.cpp:34-45 | style 1 selects the 8-entry half-step table, every other style (the full-step default included) the 4-entry table |
| Config.ConstantsSane | StepperMotor2.h:17-19 | the delay limit interval is non-empty and the calibration speed is non-zero |
| Config.ConstructorFigures | StepperMotor2.cpp:59-61 | step sizes are 175781 (full step) and 87890 (half step); 180 degrees is 1024 full-step or 2048 half-step micro-steps |
| Config.TravelWithinAngle | StepperMotor2.cpp:59-61 | `maxPosition` micro-steps of the rounded step size never exceed the requested angle |
| Coils.LevelsOf | StepperMotor2.cpp:282-291 | coil k receives bit k of the pattern |
| Coils.PatternRoundTrip | StepperMotor2.cpp:282-291 | a 4-bit pattern is recovered from the four levels written for it |
| Coils.LevelsRoundTrip | StepperMotor2.cpp:282-291 | every set of four levels comes from exactly one 4-bit pattern |
| Coils.TablesWellFormed | StepperMotor2.h:23-24 | every table entry is in [1,15], and cyclically adjacent entries share an energised coil |
| Coils.CoilIndexAsWrittenRange | StepperMotor2.cpp:261-266 | the source's index lies in [0,n]. It equals n exactly for negative multiples of n. Otherwise it is congruent to the position |
| Coils.CoilIndexAsWrittenOverruns | StepperMotor2.cpp:265 | at position -n the source's index is n, past the table |
| Coils.CoilIndex | StepperMotor2.cpp:261-266 | the corrected index is a valid table index congruent to the position modulo n |
| Coils.CoilIndexCorrects | StepperMotor2.cpp:261-266 | the corrected index agrees with the source's wherever that one is in range, and is 0 where it overruns |
| Coils.CoilIndexSucc | StepperMotor2.cpp:261-266 | one micro-step forward selects the cyclically next table entry |
| IntSqrt.Sqrt | StepperMotor2.cpp:324-328 | reference integer square root: `r*r <= x < (r+1)*(r+1)` |
| IntSqrt.SqrtUnique | StepperMotor2.cpp:324-328 | only one number brackets x that way |
| IntSqrt.SqrtZero | StepperMotor2.cpp:329-349 | the root is 0 exactly for input 0 |
| IntSqrt.Isqrt | StepperMotor2.cpp:329-349 | the digit-by-digit algorithm returns `r` with `r*r <= x < (r+1)*(r+1)` for every 32-bit x, i.e. the reference root |
| IntSqrt.FirstDigit | StepperMotor2.cpp:336-338 | `one` starts at 2^30 and drops to the largest power of four not above x (0 for x = 0) |
| IntSqrt.DigitStep | StepperMotor2.cpp:340-347 | one round either adds the next root bit or keeps the root, and keeps remainder and scaled root consistent |
| Ease.NormalizedPosition | StepperMotor2.cpp:315 | `aa` lies in [-1000, 1000] for `0 <= p <= c` |
| Ease.SpeedSquared | StepperMotor2.cpp:316 | `bb` lies in [0, 1000000] |
| Ease.SpeedTerm | StepperMotor2.cpp:317 | `cc` is the integer root of `bb` and lies in [0, 1000] |
| Ease.SineEaseInOut | StepperMotor2.cpp:312-322 | defined only where `cc != 0`; the result fits an unsigned long |
| Ease.DelayFromSpeed | StepperMotor2.cpp:319 | the wrapped 32-bit product divided by c and 3 fits an unsigned long |
| Ease.SpeedTermZero | StepperMotor2.cpp:315-319 | `cc == 0` exactly when `p == c` or `2000*p < c`, the cases where line 319 divides by zero |
| Ease.EaseMidpoint | StepperMotor2.cpp:315-319 | at `2p == c`, `cc == 1000` and the delay is `1000*d*2/c/3`, truncated in that order, for durations without wrap-around |
| Ease.EaseSlowerIsLonger | StepperMotor2.cpp:319 | without wrap-around, a lower speed term never yields a shorter delay |
| Ease.LimitDelay | StepperMotor2.cpp:223-224 | the two limit tests map a delay into [1000, 100000] and leave in-range delays alone |
| Ease.EasedDelay | StepperMotor2.cpp:221-224 | the stored goto delay lies in [1000, 100000]. It is the limited curve value where the curve is defined, and 100000 where the speed term is 0 |
| StepperMotor2.Elapsed | StepperMotor2.cpp:188-189 | elapsed time is the unsigned 32-bit difference, correct across a clock wrap |
| StepperMotor2.SetupCal | StepperMotor2.cpp:297-303 | position 0, direction -1, calibration on, and a delay that sweeps at 25 degrees per second; the goto flag, step size, travel limit, table and clock are untouched |
| StepperMotor2.Init | StepperMotor2.cpp:16-65 | the table follows the style; travel limit and step size as computed; the result is Valid and calibrating at 0 with goto off and clock 0 |
| StepperMotor2.Run | StepperMotor2.cpp:87-102 | no-op while calibrating. Otherwise: goto cancelled, direction is the sign of the speed, and the delay covers one micro-step at that speed (not limited). Speed 0 keeps the delay |
| StepperMotor2.ClampPosition | StepperMotor2.cpp:272-274 | the edge reset puts any position into [0, maxPosition] and leaves in-range positions alone |
| StepperMotor2.WriteStepToPins | StepperMotor2.cpp:240-292 | outside calibration at or past an edge: direction 0, position clamped, no coil write, goto flag kept. Otherwise coil k gets bit k of the table entry at the corrected index `CoilIndex(position, n)` |
| StepperMotor2.Step | StepperMotor2.cpp:110-123 | no-op while calibrating. Otherwise: goto and motion cancelled, and a non-zero argument moves one clamped micro-step in its direction. A step landing strictly inside the range writes that position's pattern at once; a write happens only there. Step size, travel limit, table and clock are kept |
| StepperMotor2.Stop | StepperMotor2.cpp:128-133 | no-op while calibrating. Otherwise the result equals the input except that the direction is 0, so an active goto stays recorded |
| StepperMotor2.GotoPosition | StepperMotor2.cpp:141-172 | records target, start and duration; direction is the sign of the distance; active iff the distance is non-zero; the initial delay spreads the duration evenly over the distance; not guarded by calibration |
| StepperMotor2.Recal | StepperMotor2.cpp:177-180 | re-enters calibration at position 0 sweeping in direction -1 at calibration speed; table, travel limit, step size, clock and goto flag are kept |
| StepperMotor2.Advance | StepperMotor2.cpp:188-196 | a micro-step, clock update and coil write happen only when the elapsed time exceeds the delay and a direction is set. A due step reaching an edge outside calibration sets direction 0 and writes nothing. Otherwise the direction is kept, and a due step writes the new position's pattern. Configuration is kept |
| StepperMotor2.Move | StepperMotor2.cpp:186-230 | position moves by the direction only when due, clamped outside calibration; the clock changes only then. A due step reaching an edge outside calibration stops the motor with no coil write; otherwise a due step writes the new position's pattern. With the sensor high the sweep keeps its direction and delay. A low sensor zeroes the position, ends calibration and starts a 1500 ms goto back by the distance swept, heading toward it, with first delay 1500000/distance rounded down. An active goto ends exactly when the poll leaves the motor on its target, then with direction 0; otherwise it stays active with the delay equal to the limited ease curve of the remaining and total distance. Outside calibration the goto target, start and duration are kept. Outside calibration the direction changes only at an edge stop or when a goto ends. Configuration is kept and Valid is preserved |
| StepperMotor2.Settle | StepperMotor2.cpp:198-229 | after the timed step: with the sensor high calibration continues unchanged; a low sensor starts the return goto from 0 heading toward the target with first delay 1500000/distance rounded down; outside calibration a goto on its target ends stopped, an active goto off its target gets the limited ease-curve delay, and nothing else changes; configuration is kept |
| Scenarios.Apply | StepperMotor2.cpp:87-230 | every command and poll keeps the controller Valid |
| Scenarios.ApplyAll | StepperMotor2.cpp:87-230 | any sequence of commands and polls keeps the controller Valid |
| Scenarios.HomedPositionInRange | StepperMotor2.cpp:268-274 | after construction and any call sequence the travel limit and table are still the constructor's, and once calibration has ended `0 <= position <= maxPosition` |
| Scenarios.ConfigFixed | StepperMotor2.cpp:59-61 | no sequence of commands and polls changes the travel limit, step size or coil table set by the constructor |
| Scenarios.PromptIsDue | StepperMotor2.cpp:189 | a poll one microsecond after the delay has passed finds the step due, also across a clock wrap |
| Scenarios.PromptPolls | StepperMotor2.cpp:186-196 | repeated polls keep the controller Valid |
| Scenarios.CalibrationSweep | StepperMotor2.cpp:189-211 | with the sensor high the sweep moves one micro-step toward it per due poll and stays in calibration |
| Scenarios.SweepReachesTableOverrun | StepperMotor2.cpp:261-266 | the sweep of every new controller reaches position -n, where the source's index is n and the corrected index is 0 |
| Scenarios.OverrunOnlyWhileCalibrating | StepperMotor2.cpp:261-268 | the source's index can reach n only during calibration; once homed, for any position one micro-step from a position in range, the source's and the corrected index agree |
| Scenarios.GotoFirstPollDividesByZero | StepperMotor2.cpp:214-224 | a poll before the first due step of a goto evaluates the curve at `p == c`, where `cc == 0`. The model stores 100000 there |
| Scenarios.GotoReachesTarget | StepperMotor2.cpp:213-228 | a goto to a target strictly inside the range, driven by due polls, arrives after exactly as many polls as steps to go, and ends there stopped |
| Scenarios.RunToUpperEdge | StepperMotor2.cpp:268-279 | continuous motion up moves one micro-step per due poll and stops with direction 0 on reaching the travel limit |
| Scenarios.RunScenario | StepperMotor2.cpp:60 | at 180 degrees full step the limit is 1024. A trip on the first poll ends calibration at 0. Then `run(90)` driven by due polls stops at exactly 1024 |
| Scenarios.GotoScenario | StepperMotor2.cpp:141-162 | `gotoPosition(500, 2000)` from home reaches exactly 500 and ends the goto |
| Scenarios.StepRoundTrip | StepperMotor2.cpp:110-123 | `step(+1)` then `step(-1)` returns to the start exactly when it did not begin on the upper edge of a non-empty range (at `maxPosition == 0` the position is 0 throughout) |
| Scenarios.GotoToHereIsDone | StepperMotor2.cpp:147-156 | a goto to the current position leaves no active goto and no direction, so no step is ever due |

## Left out

- Pin configuration and I/O (`pinMode`, `digitalWrite`, `digitalRead`, `micros`) are not modelled. The clock and the sensor are inputs of `Move`, and the coil write is an output of four levels in pin order. Pin numbers are not modelled.
- `Serial.print` diagnostics and `debugInternalParams` are left out: they are output only and change no state.
- The floating-point `1e3` at StepperMotor2.cpp:162 is modelled as the integer `millis*1000/distance`. Float-to-`unsigned long` conversions of quotients of 2^32 or more are not modelled.
- GotoPosition: at distance 0 the source's division by zero is replaced by keeping the previous delay, which is never read before another command overwrites it.
- SineEaseInOut: the contract only states that the result fits 32 bits. Its meaning is carried by `SpeedTermZero`, `EaseMidpoint` and `EaseSlowerIsLonger`.
- SineEaseInOut: the 32-bit overflow of `2*(p*1000)` at line 315 for moves longer than 1073741 micro-steps is not modelled.
- Settle: where the speed term is 0 the source divides by zero (StepperMotor2.cpp:319); the model stores MAX_DELAY instead (the second finding). This happens on the first poll of every goto.
- Positions and targets are mathematical integers. The `int` overflow of `target - position` (StepperMotor2.cpp:162, 222) and of `position + direction` is not modelled (GotoPosition, Settle, Move).
- Init: requires `maxAngleDeg <= 1048575`, below which `512*8*angle` fits 32 bits. Negative angles are not modelled.
- Run: `abs` of the most negative `int` is not modelled. Speeds are mathematical integers.
- WriteStepToPins: during calibration at a negative multiple of n, the model writes `table[0]`, where the source reads `_stepStates[n]` past the table (the first finding). Everywhere else the two agree (`OverrunOnlyWhileCalibrating`).
- `_currentStepState` is not stored: `writeStepToPins` recomputes it before each use and nothing else reads it.
- `_gofromPosition` and `_gotoMsecToComplete` are uninitialised in the constructor. They start at 0 here; nothing reads them before a goto sets them.
- `getPosition` and `isCalMode` are plain field reads (`GetPosition`, `IsCalMode`). On an immutable value they cannot change state.
- Commented-out code (StepperMotor2.cpp:115, 158-159, 192, 220, 242-259, 318) is not modelled.

## Findings

| source | as written | input that shows it | evidently intended | confidence | as-written member | corrected member |
|---|---|---|---|---|---|---|
| StepperMotor2.cpp:261-266 | for a negative position the index is `n - ((-pos) % n)`, which is `n` when `-pos` is a multiple of `n`. That reads `_stepStates[n]`: past the 8-entry array in half step, an unfilled slot in full step | the calibration sweep of a new controller at position `-n` (the n-th due poll with the sensor high) | the index `pos mod n` in `[0, n)`, which is 0 there | high; not executed | Scenarios.SweepReachesTableOverrun | Coils.CoilIndex |
| StepperMotor2.cpp:317-319 | `1000000/cc` with `cc = isqrt(bb)`, which is 0 when `p == c` or `2000*p < c`. Where unsigned division by zero yields 0, the limit then picks `SM2_MIN_DELAY`, the fastest step | a poll right after `gotoPosition(t, ms)` with `t != position`, before the first step is due: `p == c` | a zero speed term means the slowest step, i.e. the upper limit `SM2_MAX_DELAY` | medium; not executed | Scenarios.GotoFirstPollDividesByZero | Ease.EasedDelay |

=== FILE: coils.dfy ===
/**
  The coil side of writeStepToPins: which table entry a position selects, and
  how an entry becomes four coil levels (bit k of the entry drives coil k).
 */
module Coils {

  import opened Config

  /** Levels of the four coil lines, in pin order. */
  type Levels = l: seq<bool> | |l| == 4 witness [false, false, false, false]

  /** Bit k of an excitation pattern: the `& mask` test with mask == 1 << k. */
  function Bit(v: nat, k: nat): bool {
    (v / Pow2(k)) % 2 == 1
  }

  /** The four levels written for a pattern. */
  function LevelsOf(v: nat): (l: Levels)
    ensures forall k :: 0 <= k < 4 ==> l[k] == Bit(v, k)
  {
    [Bit(v, 0), Bit(v, 1), Bit(v, 2), Bit(v, 3)]
  }

  /** The pattern whose low four bits are the given levels. */
  function PatternOf(l: Levels): nat {
    (if l[0] then 1 else 0) + (if l[1] then 2 else 0)
    + (if l[2] then 4 else 0) + (if l[3] then 8 else 0)
  }

  /** A four-bit pattern survives the trip to coil levels and back. */
  lemma PatternRoundTrip(v: nat)
    requires v < 16
    ensures PatternOf(LevelsOf(v)) == v
  {
    assert Pow2(1) == 2 && Pow2(2) == 4 && Pow2(3) == 8;
  }

  /** Any set of four levels is the image of exactly one four-bit pattern. */
  lemma LevelsRoundTrip(l: Levels)
    ensures PatternOf(l) < 16
    ensures LevelsOf(PatternOf(l)) == l
  {
    assert Pow2(1) == 2 && Pow2(2) == 4 && Pow2(3) == 8;
  }

  /** Two patterns energise a common coil. */
  predicate ShareCoil(a: nat, b: nat) {
    || (Bit(a, 0) && Bit(b, 0))
    || (Bit(a, 1) && Bit(b, 1))
    || (Bit(a, 2) && Bit(b, 2))
    || (Bit(a, 3) && Bit(b, 3))
  }

  /**
    Both tables use only the four coil bits, energise at least one coil in every
    entry, and cyclically adjacent entries keep one coil energised across the step.
   */
  lemma TablesWellFormed(t: seq<nat>)
    requires IsTable(t)
    ensures forall i :: 0 <= i < |t| ==> 1 <= t[i] <= 15
    ensures forall i, j :: 0 <= i < |t| && j == (i + 1) % |t| ==> ShareCoil(t[i], t[j])
  {
    assert Pow2(1) == 2 && Pow2(2) == 4 && Pow2(3) == 8;
    forall i, j | 0 <= i < |t| && j == (i + 1) % |t|
      ensures ShareCoil(t[i], t[j])
    {
      if t == HalfTable {
        assert Bit(1, 0) && Bit(3, 1) && Bit(2, 1) && Bit(6, 2);
        assert Bit(4, 2) && Bit(12, 3) && Bit(8, 3) && Bit(9, 0);
        assert Bit(3, 0) && Bit(6, 1) && Bit(12, 2) && Bit(9, 3);
      } else {
        assert Bit(3, 1) && Bit(6, 1) && Bit(6, 2) && Bit(12, 2);
        assert Bit(12, 3) && Bit(9, 3) && Bit(9, 0) && Bit(3, 0);
      }
    }
  }

  /**
    The table index as the source computes it: `pos % n` for a non-negative
    position, `n - ((-pos) % n)` for a negative one (C truncating `%`, which
    agrees with Dafny's on the non-negative operands used here).
   */
  function CoilIndexAsWritten(pos: int, n: nat): int
    requires IsTableSize(n)
  {
    if pos >= 0 then pos % n else n - ((-pos) % n)
  }

  /**
    The as-written index leaves the table exactly for the negative multiples of
    n, where it is n; everywhere else it is a valid index congruent to pos.
   */
  lemma CoilIndexAsWrittenRange(pos: int, n: nat)
    requires IsTableSize(n)
    ensures 0 <= CoilIndexAsWritten(pos, n) <= n
    ensures CoilIndexAsWritten(pos, n) == n <==> pos < 0 && pos % n == 0
    ensures CoilIndexAsWritten(pos, n) < n ==> (pos - CoilIndexAsWritten(pos, n)) % n == 0
  {
    var i := CoilIndexAsWritten(pos, n);
    if pos < 0 {
      NegativeMod(pos, n);
      if i < n {
        ModUnique(pos - i, n, pos / n, 0);
      }
    } else {
      ModUnique(pos - i, n, pos / n, 0);
    }
  }

  /** Number of entries in one of the two coil tables. */
  predicate IsTableSize(n: nat) {
    n == |HalfTable| || n == |FullTable|
  }

  /** Concrete instance: one full table cycle below home selects the slot past the table. */
  lemma CoilIndexAsWrittenOverruns(n: nat)
    requires IsTableSize(n)
    ensures CoilIndexAsWritten(-(n as int), n) == n
  {
  }

  /** The intended index: the table entry congruent to pos modulo n. */
  function CoilIndex(pos: int, n: nat): (r: nat)
    requires IsTableSize(n)
    ensures r < n
    ensures (pos - r) % n == 0
  {
    pos % n
  }

  /** The corrected index differs from the written one only where that one overruns. */
  lemma CoilIndexCorrects(pos: int, n: nat)
    requires IsTableSize(n)
    ensures CoilIndexAsWritten(pos, n) < n ==> CoilIndex(pos, n) == CoilIndexAsWritten(pos, n)
    ensures CoilIndexAsWritten(pos, n) == n ==> CoilIndex(pos, n) == 0
  {
    if pos < 0 {
      NegativeMod(pos, n);
    }
  }

  /** One micro-step forward moves to the cyclically next table entry. */
  lemma CoilIndexSucc(pos: int, n: nat)
    requires IsTableSize(n)
    ensures CoilIndex(pos + 1, n) == (CoilIndex(pos, n) + 1) % n
  {
    var q := pos / n;
    var r := pos % n;
    if r + 1 < n {
      ModUnique(pos + 1, n, q, r + 1);
    } else {
      ModUnique(pos + 1, n, q + 1, 0);
    }
  }

  /** For a negative position, Euclidean `pos % n` in terms of the truncated remainder of -pos. */
  lemma NegativeMod(pos: int, n: nat)
    requires pos < 0 && n > 0
    ensures (-pos) % n == 0 ==> pos % n == 0
    ensures (-pos) % n != 0 ==> pos % n == n - (-pos) % n
  {
    var q := (-pos) / n;
    var r := (-pos) % n;
    if r == 0 {
      ModUnique(pos, n, -q, 0);
    } else {
      ModUnique(pos, n, -q - 1, n - r);
    }
  }

  /** Quotient and remainder are the only pair that decomposes a this way. */
  lemma ModUnique(a: int, n: nat, q: int, r: int)
    requires n > 0 && 0 <= r < n && a == q * n + r
    ensures a / n == q && a % n == r
  {
    var q0 := a / n;
    var r0 := a % n;
    assert (q - q0) * n == r0 - r;
    MulBounds(q - q0, n);
  }

  /** A non-zero multiple of n is at least n away from zero. */
  lemma MulBounds(k: int, n: nat)
    requires n > 0
    ensures k >= 1 ==> k * n >= n
    ensures k <= -1 ==> k * n <= -(n as int)
  {
    if k <= -1 {
      assert k * n == -((-k) * n);
    }
  }

}

=== FILE: config.dfy ===
/**
  Configuration of a StepperMotor2 controller: the step-style constants, the
  delay bounds, the calibration speed, the two coil tables (StepperMotor2.h)
  and the travel/step-size arithmetic done once by the constructor
  (StepperMotor2.cpp).
 */
module Config {

  /** Unsigned long on the target is 32 bits wide. */
  const U32: int := 0x1_0000_0000
  type u32 = x: int | 0 <= x < U32

  /** Step styles accepted by the constructor. */
  const FULLSTEP: int := 0
  const HALFSTEP: int := 1

  /** Bounds applied to the eased goto delay, in microseconds. */
  const MAX_DELAY: nat := 100000
  const MIN_DELAY: nat := 1000

  /** Angular speed of the homing sweep, in degrees per second. */
  const CAL_SPEED_DPS: nat := 25

  /** 512 table cycles make one full turn of the output shaft. */
  const CYCLES_PER_TURN: nat := 512

  /** Microdegrees in a full turn. */
  const MICRODEGREES_PER_TURN: nat := 360 * 1000000

  /** Largest travel angle whose 32-bit product 512 * 8 * angle does not wrap. */
  const MAX_ANGLE: nat := 1048575

  /** Coil excitation patterns; bit k drives coil k. */
  const HalfTable: seq<nat> := [1, 3, 2, 6, 4, 12, 8, 9]
  const FullTable: seq<nat> := [3, 6, 12, 9]

  function Abs(x: int): nat {
    if x < 0 then -x else x
  }

  function Sign(x: int): int {
    if x > 0 then 1 else if x < 0 then -1 else 0
  }

  /** 2^k, the value of `1 << k`. */
  function Pow2(k: nat): (r: nat)
    ensures r >= 1
  {
    if k == 0 then 1 else 2 * Pow2(k - 1)
  }

  /** The constructor's table choice: half-step only for style 1, full-step otherwise. */
  function TableFor(style: int): seq<nat> {
    if style == HALFSTEP then HalfTable else FullTable
  }

  predicate IsTable(t: seq<nat>) {
    t == HalfTable || t == FullTable
  }

  /** Travel limit in micro-steps: the whole number of micro-steps in maxAngleDeg degrees. */
  function MaxPositionFor(n: nat, angle: nat): (r: nat)
    requires n > 0
    ensures r * 360 <= CYCLES_PER_TURN * n * angle < (r + 1) * 360
  {
    CYCLES_PER_TURN * n * angle / 360
  }

  /** Size of one micro-step in microdegrees, rounded down. */
  function StepSizeFor(n: nat): (r: nat)
    requires n > 0
    ensures r * (CYCLES_PER_TURN * n) <= MICRODEGREES_PER_TURN < (r + 1) * (CYCLES_PER_TURN * n)
  {
    MICRODEGREES_PER_TURN / (CYCLES_PER_TURN * n)
  }

  /** Style 1 selects the eight-entry half-step table; every other style the four-entry table. */
  lemma TableSelection(style: int)
    ensures IsTable(TableFor(style))
    ensures |TableFor(style)| == 8 <==> style == HALFSTEP
    ensures |TableFor(style)| == 4 <==> style != HALFSTEP
  {
  }

  /** The delay clamp interval is non-empty and the calibration divisor is non-zero. */
  lemma ConstantsSane()
    ensures MIN_DELAY < MAX_DELAY
    ensures CAL_SPEED_DPS > 0
  {
  }

  /** The constructor's figures for the two styles, and for 180 degrees of full-step travel. */
  lemma ConstructorFigures()
    ensures StepSizeFor(|FullTable|) == 175781
    ensures StepSizeFor(|HalfTable|) == 87890
    ensures MaxPositionFor(|FullTable|, 180) == 1024
    ensures MaxPositionFor(|HalfTable|, 180) == 2048
  {
  }

  /**
    The travel the controller allows never exceeds the requested angle:
    maxPosition micro-steps of the rounded-down step size stay within angle degrees.
   */
  lemma {:induction false} TravelWithinAngle(n: nat, angle: nat)
    requires n > 0
    ensures MaxPositionFor(n, angle) * StepSizeFor(n) <= angle * 1000000
  {
    var m := MaxPositionFor(n, angle);
    var z := StepSizeFor(n);
    var k := CYCLES_PER_TURN * n;
    assert m * 360 <= k * angle;
    assert z * k <= MICRODEGREES_PER_TURN;
    calc {
      m * z * 360 * k;
      == (m * 360) * (z * k);
      <= { MulMono(m * 360, k * angle, z * k); }
         (k * angle) * (z * k);
      <= { MulMono(z * k, MICRODEGREES_PER_TURN, k * angle); }
         (k * angle) * MICRODEGREES_PER_TURN;
      == (angle * 1000000) * 360 * k;
    }
    MulCancel(m * z, angle * 1000000, 360 * k);
  }

  lemma MulMono(a: nat, b: nat, c: nat)
    requires a <= b
    ensures a * c <= b * c
  {
  }

  lemma MulCancel(a: nat, b: nat, c: nat)
    requires c > 0
    requires a * c <= b * c
    ensures a <= b
  {
  }

}

=== FILE: ease.dfy ===
/**
  The sine-shaped ease-in/ease-out step delay used while a goto is active
  (StepperMotor2::sineEaseInOut), its three integer intermediates, and the
  limited delay the poll actually stores.
 */
module Ease {

  import opened Config
  import opened IntSqrt

  /** Largest goto duration (ms) for which 1000 * d * 2 still fits in 32 bits. */
  const NO_WRAP_MILLIS: nat := 2147483

  /**
    `aa`: the position along the move mapped onto [-1000, 1000], from +1000
    at the target (p == 0) to -1000 at the start (p == c).
   */
  function NormalizedPosition(p: int, c: int): (r: int)
    requires 0 <= p <= c && c > 0
    ensures -1000 <= r <= 1000
  {
    DivAtMost(2 * (p * 1000), 2000, c);
    1000 - (2 * (p * 1000)) / c
  }

  /** `bb`: 1000000 - aa^2, the square of the speed term, scaled by 10^6. */
  function SpeedSquared(p: int, c: int): (r: nat)
    requires 0 <= p <= c && c > 0
    ensures r <= 1000000
  {
    var aa := NormalizedPosition(p, c);
    SquareAtMost(aa, 1000);
    1000000 - aa * aa
  }

  /** `cc`: the speed term, isqrt(bb), in thousandths of full speed. */
  function SpeedTerm(p: int, c: int): (r: nat)
    requires 0 <= p <= c && c > 0
    ensures r <= 1000
    ensures r == Sqrt(SpeedSquared(p, c))
  {
    SqrtAtMost(SpeedSquared(p, c), 1000);
    Sqrt(SpeedSquared(p, c))
  }

  /** The curve is defined only where the speed term it divides by is non-zero. */
  predicate EaseDefined(p: int, c: int)
    requires 0 <= p <= c && c > 0
  {
    SpeedTerm(p, c) != 0
  }

  /**
    The delay in microseconds for the step with p of c steps remaining in a
    move planned to take d milliseconds. The 32-bit product of line 319 wraps
    modulo 2^32 before the two divisions, so the result always fits an
    unsigned long.
   */
  function SineEaseInOut(p: int, c: int, d: u32): (r: nat)
    requires 0 <= p <= c && c > 0
    requires EaseDefined(p, c)
    ensures r < U32
  {
    DelayFromSpeed(SpeedTerm(p, c), c, d)
  }

  /** Line 319: 1000000 / cc * d * 2 in 32-bit arithmetic, then / c / 3. */
  function DelayFromSpeed(cc: int, c: int, d: u32): (r: nat)
    requires cc > 0 && c > 0
    ensures r < U32
  {
    var speedUnit: nat := 1000000 / cc;
    var wide: nat := speedUnit * d * 2;
    wide % U32 / c / 3
  }

  /**
    The divisor of line 319 is zero exactly at the first step of a move
    (p == c) and in the final 1/2000 of a move (2000 * p < c).
   */
  lemma SpeedTermZero(p: int, c: int)
    requires 0 <= p <= c && c > 0
    ensures SpeedTerm(p, c) == 0 <==> p == c || 2000 * p < c
  {
    var q := (2 * (p * 1000)) / c;
    var aa := NormalizedPosition(p, c);
    assert aa == 1000 - q;
    SqrtZero(SpeedSquared(p, c));
    assert SpeedTerm(p, c) == 0 <==> aa * aa == 1000000;
    if -1000 < aa < 1000 {
      SquareAtMost(aa, 999);
    }
    assert aa * aa == 1000000 <==> aa == 1000 || aa == -1000;
    assert q * c <= 2000 * p < (q + 1) * c;
    if q == 0 {
      assert 2000 * p < c;
    } else if 2000 * p < c {
      MulAtLeast(q, c);
      assert false;
    }
    if p == c {
      MulDivCancel(2000, c);
      assert q == 2000;
    }
  }

  /**
    At the midpoint of a move the speed term is full (1000) and, for goto
    durations whose product does not wrap, the delay is 1000 * d * 2 / c / 3,
    truncated in that order.
   */
  lemma EaseMidpoint(p: int, c: int, d: u32)
    requires 0 <= p <= c && c > 0
    requires 2 * p == c
    requires d <= NO_WRAP_MILLIS
    ensures SpeedTerm(p, c) == 1000
    ensures EaseDefined(p, c) && SineEaseInOut(p, c, d) == 1000 * d * 2 / c / 3
  {
    MidpointPosition(p, c);
    SqrtUnique(1000000, 1000);
    assert SpeedTerm(p, c) == 1000;
    MidpointDelay(c, d);
  }

  lemma MidpointPosition(p: int, c: int)
    requires 0 <= p <= c && c > 0
    requires 2 * p == c
    ensures NormalizedPosition(p, c) == 0
    ensures SpeedSquared(p, c) == 1000000
  {
    assert 2 * (p * 1000) == 1000 * c;
    MulDivCancel(1000, c);
  }

  lemma MidpointDelay(c: int, d: u32)
    requires c > 0
    requires d <= NO_WRAP_MILLIS
    ensures (1000000 / 1000) * d * 2 % U32 / c / 3 == 1000 * d * 2 / c / 3
  {
    assert 1000000 / 1000 == 1000;
    assert 1000 * d * 2 < U32;
  }

  /**
    Without wrap-around the curve is monotone in the speed term: a step
    planned at lower speed never gets a shorter delay.
   */
  lemma EaseSlowerIsLonger(p1: int, p2: int, c: int, d: u32)
    requires 0 <= p1 <= c && 0 <= p2 <= c && c > 0
    requires EaseDefined(p1, c) && EaseDefined(p2, c)
    requires SpeedTerm(p1, c) <= SpeedTerm(p2, c)
    requires (1000000 / SpeedTerm(p1, c)) * d * 2 < U32
    ensures SineEaseInOut(p1, c, d) >= SineEaseInOut(p2, c, d)
  {
    EaseUnfold(p1, c, d);
    EaseUnfold(p2, c, d);
    QuotientAntitone(SpeedTerm(p1, c), SpeedTerm(p2, c), c, d);
  }

  /** The arithmetic of line 319 yields no less for a smaller divisor, absent wrap-around. */
  lemma QuotientAntitone(c1: int, c2: int, c: int, d: nat)
    requires 0 < c1 <= c2 && c > 0
    requires (1000000 / c1) * d * 2 < U32
    ensures (1000000 / c2) * d * 2 % U32 / c / 3 <= (1000000 / c1) * d * 2 % U32 / c / 3
  {
    DivAntitone(1000000, c1, c2);
    var a1 := 1000000 / c1;
    var a2 := 1000000 / c2;
    MulMono(a2, a1, d);
    MulMono(a2 * d, a1 * d, 2);
    WrappedQuotientMono(a2 * d * 2, a1 * d * 2, c);
  }

  lemma EaseUnfold(p: int, c: int, d: u32)
    requires 0 <= p <= c && c > 0
    requires EaseDefined(p, c)
    ensures SineEaseInOut(p, c, d) == (1000000 / SpeedTerm(p, c)) * d * 2 % U32 / c / 3
  {
    assert SineEaseInOut(p, c, d) == DelayFromSpeed(SpeedTerm(p, c), c, d);
  }

  /** The two sequential limit tests of lines 223-224. */
  function LimitDelay(v: nat): (r: nat)
    ensures MIN_DELAY <= r <= MAX_DELAY
    ensures MIN_DELAY <= v <= MAX_DELAY ==> r == v
    ensures v < MIN_DELAY ==> r == MIN_DELAY
    ensures v > MAX_DELAY ==> r == MAX_DELAY
  {
    var low := if v < MIN_DELAY then MIN_DELAY else v;
    if low > MAX_DELAY then MAX_DELAY else low
  }

  /**
    The delay a poll stores while a goto is active: the eased delay, limited
    to [MIN_DELAY, MAX_DELAY]. Where the speed term is zero the curve asks for
    an unbounded delay, which the limit turns into MAX_DELAY.
   */
  function EasedDelay(p: int, c: int, d: u32): (r: nat)
    requires 0 <= p <= c && c > 0
    ensures MIN_DELAY <= r <= MAX_DELAY
    ensures !EaseDefined(p, c) ==> r == MAX_DELAY
    ensures EaseDefined(p, c) && MIN_DELAY <= SineEaseInOut(p, c, d) <= MAX_DELAY ==>
      r == SineEaseInOut(p, c, d)
    ensures EaseDefined(p, c) && SineEaseInOut(p, c, d) < MIN_DELAY ==> r == MIN_DELAY
    ensures EaseDefined(p, c) && SineEaseInOut(p, c, d) > MAX_DELAY ==> r == MAX_DELAY
  {
    if EaseDefined(p, c) then LimitDelay(SineEaseInOut(p, c, d)) else MAX_DELAY
  }

  // Arithmetic helpers.

  lemma SquareAtMost(a: int, n: nat)
    requires -(n as int) <= a <= n
    ensures a * a <= n * n
  {
    var b: nat := if a < 0 then -a else a;
    assert a * a == b * b;
    SquareMono(b, n);
  }

  lemma DivAtMost(a: int, b: int, c: int)
    requires 0 <= a <= b * c && c > 0 && b >= 0
    ensures 0 <= a / c <= b
  {
    var q := a / c;
    if q > b {
      MulAtLeast(q - b, c);
    }
  }

  lemma MulAtLeast(q: int, c: int)
    requires q >= 1 && c > 0
    ensures q * c >= c
  {
  }

  lemma MulDivCancel(a: nat, c: int)
    requires c > 0
    ensures (a * c) / c == a
  {
    var q := (a * c) / c;
    var m := (a * c) % c;
    assert a * c == q * c + m;
    assert (a - q) * c == m;
    if a - q >= 1 {
      MulAtLeast(a - q, c);
    } else if a - q <= -1 {
      MulAtLeast(q - a, c);
    }
  }

  lemma WrappedQuotientMono(w2: nat, w1: nat, c: int)
    requires w2 <= w1 < U32 && c > 0
    ensures w2 % U32 / c / 3 <= w1 % U32 / c / 3
  {
    assert w1 % U32 == w1 && w2 % U32 == w2;
    DivMono(w2, w1, c);
    DivMono(w2 / c, w1 / c, 3);
  }

  lemma DivMono(a: nat, b: nat, c: int)
    requires a <= b && c > 0
    ensures a / c <= b / c
  {
    var qa := a / c;
    var qb := b / c;
    if qa > qb {
      MulAtLeast(qa - qb, c);
    }
  }

  lemma DivAntitone(a: nat, c1: int, c2: int)
    requires 0 < c1 <= c2
    ensures a / c2 <= a / c1
  {
    var q1 := a / c1;
    var q2 := a / c2;
    MulMono(c1, c2, q2);
    assert q2 * c1 <= q2 * c2 <= a;
    if q2 > q1 {
      MulAtLeast(q2 - q1, c1);
    }
  }

}

=== FILE: motor.dfy ===
/**
  The StepperMotor2 controller as an immutable state with one pure transition
  per command (run, step, stop, gotoPosition, recal) and per poll (move).
  The clock (`micros()`) and the limit sensor (`digitalRead`) are inputs of
  the poll; the four coil writes are returned as an optional set of levels.
 */
module StepperMotor2 {

  import opened Wrappers
  import opened Config
  import opened Coils
  import opened Ease

  /** Everything the controller remembers between calls. */
  datatype Motor = Motor(
    position: int,        // micro-steps from home
    maxPosition: nat,     // travel limit in micro-steps
    stepSize: nat,        // microdegrees per micro-step
    direction: int,       // -1, 0 or +1
    stepDelay: nat,       // microseconds between micro-steps
    gotoActive: bool,
    gotoTarget: int,
    gotoFrom: int,        // position when the goto was issued
    gotoMillis: u32,      // planned duration of the goto
    calibrating: bool,
    previousStep: u32,    // clock reading at the last micro-step
    table: seq<nat>)      // the selected coil table

  /** A new state and, when the coil lines were written, the four levels written. */
  datatype Outcome = Outcome(motor: Motor, coils: Option<Levels>)

  /** The calibration sweep's first direction. */
  const CAL_DIRECTION: int := -1

  /** Duration of the return move issued when the sensor trips, in milliseconds. */
  const CAL_RETURN_MILLIS: u32 := 1500

  /** p lies on the closed segment between a and b. */
  predicate Between(a: int, p: int, b: int) {
    (a <= p <= b) || (b <= p <= a)
  }

  /** Facts that hold at every point of every call: a real table, a unit direction, a homed position in range. */
  predicate Sane(s: Motor) {
    && IsTable(s.table)
    && -1 <= s.direction <= 1
    && (!s.calibrating ==> 0 <= s.position <= s.maxPosition)
  }

  /** An active goto that is heading from its start toward a different target without having passed it. */
  predicate GotoOnCourse(s: Motor) {
    && s.gotoTarget != s.gotoFrom
    && Between(s.gotoFrom, s.position, s.gotoTarget)
  }

  /**
    The invariant every reachable state keeps between calls: Sane, and an
    active goto outside calibration is on course with the motor stopped or
    moving toward the target.
   */
  predicate Valid(s: Motor) {
    && Sane(s)
    && (!s.calibrating && s.gotoActive ==>
          GotoOnCourse(s) && (s.direction == 0 || s.direction == Sign(s.gotoTarget - s.position)))
  }

  /**
    What holds right after the timed micro-step of a poll: as Valid, except
    that an active goto may have just landed on its target with its
    direction still set (the rest of the poll then ends it).
   */
  predicate ValidMidPoll(s: Motor) {
    && Sane(s)
    && (!s.calibrating && s.gotoActive ==>
          && GotoOnCourse(s)
          && (s.direction == 0 || s.position == s.gotoTarget
              || s.direction == Sign(s.gotoTarget - s.position)))
  }

  function GetPosition(s: Motor): int {
    s.position
  }

  function IsCalMode(s: Motor): bool {
    s.calibrating
  }

  /** Microseconds since the last micro-step, as 32-bit unsigned subtraction. */
  function Elapsed(now: u32, previous: u32): (r: u32)
    ensures now >= previous ==> r == now - previous
    ensures now < previous ==> r == now + U32 - previous
  {
    (now - previous) % U32
  }

  /** The poll advances the motor exactly when the delay has passed and a direction is set. */
  predicate Due(s: Motor, now: u32) {
    Elapsed(now, s.previousStep) > s.stepDelay && s.direction != 0
  }

  /** Prepare the homing sweep: from a zeroed position, toward the sensor, at calibration speed. */
  function SetupCal(s: Motor): (r: Motor)
    ensures r.calibrating && r.position == 0 && r.direction == CAL_DIRECTION
    ensures r.stepDelay * CAL_SPEED_DPS <= s.stepSize < (r.stepDelay + 1) * CAL_SPEED_DPS
    ensures r.gotoActive == s.gotoActive && r.table == s.table
    ensures r.maxPosition == s.maxPosition && r.previousStep == s.previousStep
    ensures r.stepSize == s.stepSize
    ensures Valid(s) ==> Valid(r)
  {
    s.(position := 0, direction := CAL_DIRECTION,
       stepDelay := s.stepSize / CAL_SPEED_DPS, calibrating := true)
  }

  /**
    The constructor: select the table, derive the travel limit and step size,
    clear the goto record and the step clock, and enter calibration.
    The goto start and duration are left uninitialised by the source and
    start at 0 here; nothing reads them before a goto sets them.
   */
  function Init(maxAngleDeg: nat, stepStyle: int): (r: Motor)
    requires maxAngleDeg <= MAX_ANGLE
    ensures Valid(r)
    ensures r.table == TableFor(stepStyle)
    ensures r.maxPosition * 360 <= CYCLES_PER_TURN * |r.table| * maxAngleDeg
    ensures CYCLES_PER_TURN * |r.table| * maxAngleDeg < (r.maxPosition + 1) * 360
    ensures r.stepSize * (CYCLES_PER_TURN * |r.table|) <= MICRODEGREES_PER_TURN
    ensures MICRODEGREES_PER_TURN < (r.stepSize + 1) * (CYCLES_PER_TURN * |r.table|)
    ensures r.calibrating && r.position == 0 && r.direction == CAL_DIRECTION
    ensures r.stepDelay * CAL_SPEED_DPS <= r.stepSize < (r.stepDelay + 1) * CAL_SPEED_DPS
    ensures !r.gotoActive && r.previousStep == 0
  {
    var table := TableFor(stepStyle);
    TableSelection(stepStyle);
    var n := |table|;
    SetupCal(Motor(
      position := 0,
      maxPosition := MaxPositionFor(n, maxAngleDeg),
      stepSize := StepSizeFor(n),
      direction := 0,
      stepDelay := 0,
      gotoActive := false,
      gotoTarget := 0,
      gotoFrom := 0,
      gotoMillis := 0,
      calibrating := false,
      previousStep := 0,
      table := table))
  }

  /**
    Continuous motion at a signed speed in degrees per second. Ignored while
    calibrating; otherwise cancels any goto, takes the direction from the
    sign and, for a non-zero speed, the delay that covers one micro-step at
    that speed (stepSize microdegrees at |speed| degrees per second). The
    delay is not limited here.
   */
  function Run(s: Motor, speedDps: int): (r: Motor)
    ensures s.calibrating ==> r == s
    ensures !s.calibrating ==> !r.gotoActive && r.direction == Sign(speedDps)
    ensures !s.calibrating && speedDps != 0 ==>
      r.stepDelay * Abs(speedDps) <= s.stepSize < (r.stepDelay + 1) * Abs(speedDps)
    ensures speedDps == 0 ==> r.stepDelay == s.stepDelay
    ensures r.position == s.position && r.calibrating == s.calibrating
    ensures r.previousStep == s.previousStep && r.table == s.table
    ensures r.maxPosition == s.maxPosition && r.stepSize == s.stepSize
    ensures Valid(s) ==> Valid(r)
  {
    if s.calibrating then s
    else if speedDps == 0 then s.(gotoActive := false, direction := 0)
    else s.(gotoActive := false, direction := Sign(speedDps),
            stepDelay := s.stepSize / Abs(speedDps))
  }

  /** The clamp of writeStepToPins: at most 0 becomes 0, then at least maxPosition becomes maxPosition. */
  function ClampPosition(p: int, maxPosition: nat): (r: int)
    ensures 0 <= r <= maxPosition
    ensures 0 <= p <= maxPosition ==> r == p
    ensures p < 0 ==> r == 0
    ensures p > maxPosition ==> r == maxPosition
  {
    var low := if p <= 0 then 0 else p;
    if low >= maxPosition then maxPosition else low
  }

  /** Whether writeStepToPins treats the position as a travel edge. */
  predicate AtEdge(s: Motor) {
    !s.calibrating && (s.position <= 0 || s.position >= s.maxPosition)
  }

  /**
    Translate the position into coil levels, enforcing the travel edges.
    Outside calibration a position at or beyond either edge stops the motor,
    is clamped into [0, maxPosition] and writes nothing, leaving the coils as
    they were and the goto record untouched. Otherwise bit k of the selected
    table entry goes to coil k. The entry is chosen with the corrected index
    (see CoilIndexAsWritten for the source's).
   */
  function WriteStepToPins(s: Motor): (r: Outcome)
    requires IsTable(s.table)
    ensures AtEdge(s) ==>
      && r.coils == None
      && r.motor == s.(direction := 0, position := ClampPosition(s.position, s.maxPosition))
    ensures !AtEdge(s) ==>
      && r.motor == s
      && r.coils.Some?
      && (forall k :: 0 <= k < 4 ==>
            r.coils.value[k] == Bit(s.table[CoilIndex(s.position, |s.table|)], k))
    ensures 0 <= r.motor.position <= r.motor.maxPosition || r.motor.calibrating
    ensures r.motor.gotoActive == s.gotoActive && r.motor.calibrating == s.calibrating
  {
    if AtEdge(s) then
      Outcome(s.(direction := 0, position := ClampPosition(s.position, s.maxPosition)), None)
    else
      Outcome(s, Some(LevelsOf(s.table[CoilIndex(s.position, |s.table|)])))
  }

  /**
    A single micro-step, written to the coils at once. Ignored while
    calibrating; otherwise cancels any goto and any continuous motion and,
    for a non-zero argument, moves one micro-step in its direction.
   */
  function Step(s: Motor, direction: int): (r: Outcome)
    requires Valid(s)
    ensures s.calibrating ==> r == Outcome(s, None)
    ensures !s.calibrating ==> !r.motor.gotoActive && r.motor.direction == 0
    ensures !s.calibrating && direction == 0 ==> r.motor.position == s.position && r.coils == None
    ensures !s.calibrating && direction != 0 ==>
      r.motor.position == ClampPosition(s.position + Sign(direction), s.maxPosition)
    ensures r.coils.Some? ==> 0 < r.motor.position < s.maxPosition
    ensures !s.calibrating && direction != 0 && 0 < s.position + Sign(direction) < s.maxPosition ==>
      r.coils == Some(LevelsOf(s.table[CoilIndex(s.position + Sign(direction), |s.table|)]))
    ensures r.motor.previousStep == s.previousStep && r.motor.calibrating == s.calibrating
    ensures r.motor.table == s.table && r.motor.maxPosition == s.maxPosition
    ensures r.motor.stepSize == s.stepSize
    ensures Valid(r.motor)
  {
    if s.calibrating then Outcome(s, None)
    else
      var stopped := s.(gotoActive := false, direction := 0);
      if direction != 0 then WriteStepToPins(stopped.(position := s.position + Sign(direction)))
      else Outcome(stopped, None)
  }

  /** Stop any motion except the calibration sweep; an active goto stays recorded. */
  function Stop(s: Motor): (r: Motor)
    ensures s.calibrating ==> r == s
    ensures !s.calibrating ==> r.direction == 0 && r.(direction := s.direction) == s
    ensures r.position == s.position && r.gotoActive == s.gotoActive
    ensures r.stepDelay == s.stepDelay && r.calibrating == s.calibrating
    ensures Valid(s) ==> Valid(r)
  {
    if s.calibrating then s else s.(direction := 0)
  }

  /**
    Start a timed move to an absolute position. Not guarded by calibration.
    Records target, start and duration, heads toward the target, and is
    active only if the target differs from the position. The initial delay
    spreads the duration evenly over the distance; at distance zero the
    source divides by zero, and the model keeps the previous delay, which
    nothing reads while the direction is 0.
   */
  function GotoPosition(s: Motor, target: int, millis: u32): (r: Motor)
    ensures r.gotoTarget == target && r.gotoFrom == s.position && r.gotoMillis == millis
    ensures r.direction == Sign(target - s.position)
    ensures r.gotoActive <==> target != s.position
    ensures target != s.position ==>
      && r.stepDelay * Abs(target - s.position) <= millis * 1000
      && millis * 1000 < (r.stepDelay + 1) * Abs(target - s.position)
    ensures r.position == s.position && r.calibrating == s.calibrating
    ensures r.previousStep == s.previousStep && r.table == s.table
    ensures r.maxPosition == s.maxPosition && r.stepSize == s.stepSize
    ensures Valid(s) ==> Valid(r)
  {
    var distance := Abs(target - s.position);
    s.(gotoActive := target != s.position,
       gotoTarget := target,
       gotoFrom := s.position,
       gotoMillis := millis,
       direction := Sign(target - s.position),
       stepDelay := if distance == 0 then s.stepDelay else millis * 1000 / distance)
  }

  /** Re-enter calibration. */
  function Recal(s: Motor): (r: Motor)
    ensures r.calibrating && r.position == 0 && r.direction == CAL_DIRECTION
    ensures r.stepDelay * CAL_SPEED_DPS <= s.stepSize < (r.stepDelay + 1) * CAL_SPEED_DPS
    ensures r.gotoActive == s.gotoActive
    ensures r.table == s.table && r.maxPosition == s.maxPosition && r.stepSize == s.stepSize
    ensures r.previousStep == s.previousStep
    ensures Valid(s) ==> Valid(r)
  {
    SetupCal(s)
  }

  /** The first half of a poll: one micro-step when due, with its coil write. */
  function Advance(s: Motor, now: u32): (r: Outcome)
    requires Valid(s)
    ensures ValidMidPoll(r.motor)
    ensures !Due(s, now) ==> r == Outcome(s, None)
    ensures Due(s, now) ==> r.motor.previousStep == now
    ensures Due(s, now) && s.calibrating ==> r.motor.position == s.position + s.direction
    ensures Due(s, now) && !s.calibrating ==>
      r.motor.position == ClampPosition(s.position + s.direction, s.maxPosition)
    ensures r.coils.Some? ==> Due(s, now)
    ensures Due(s, now) && (s.calibrating || 0 < s.position + s.direction < s.maxPosition) ==>
      r.coils == Some(LevelsOf(s.table[CoilIndex(s.position + s.direction, |s.table|)]))
    ensures r.motor.calibrating == s.calibrating && r.motor.gotoActive == s.gotoActive
    ensures r.motor.gotoTarget == s.gotoTarget && r.motor.gotoFrom == s.gotoFrom
    ensures r.motor.gotoMillis == s.gotoMillis && r.motor.stepDelay == s.stepDelay
    ensures Due(s, now) && !s.calibrating && !(0 < s.position + s.direction < s.maxPosition) ==>
      r.coils == None && r.motor.direction == 0
    ensures !(Due(s, now) && !s.calibrating && !(0 < s.position + s.direction < s.maxPosition)) ==>
      r.motor.direction == s.direction
    ensures r.motor.maxPosition == s.maxPosition && r.motor.table == s.table
    ensures r.motor.stepSize == s.stepSize
  {
    if Due(s, now) then
      WriteStepToPins(s.(previousStep := now, position := s.position + s.direction))
    else
      Outcome(s, None)
  }

  /**
    The poll. First the timed micro-step; then, while calibrating, a low
    sensor reading ends calibration: the position becomes 0 and a 1.5 s goto
    back by the distance swept starts. Outside calibration an active goto
    either finds its target (and ends, stopping the motor) or recomputes the
    delay from the ease curve, limited to [MIN_DELAY, MAX_DELAY].
   */
  function Move(s: Motor, now: u32, sensor: bool): (r: Outcome)
    requires Valid(s)
    ensures Valid(r.motor)
    // coil write: the new position's pattern when due and not stopped by an edge
    ensures r.coils.Some? ==> Due(s, now)
    ensures Due(s, now) && (s.calibrating || 0 < s.position + s.direction < s.maxPosition) ==>
      r.coils == Some(LevelsOf(s.table[CoilIndex(s.position + s.direction, |s.table|)]))
    // edge stop: a due step reaching either edge outside calibration stops the motor, no write
    ensures Due(s, now) && !s.calibrating && !(0 < s.position + s.direction < s.maxPosition) ==>
      r.coils == None && r.motor.direction == 0
    ensures !s.calibrating && !(s.gotoActive && !r.motor.gotoActive)
            && !(Due(s, now) && !(0 < s.position + s.direction < s.maxPosition)) ==>
      r.motor.direction == s.direction
    ensures r.motor.table == s.table && r.motor.maxPosition == s.maxPosition
    ensures r.motor.stepSize == s.stepSize
    ensures r.motor.previousStep == (if Due(s, now) then now else s.previousStep)
    // position: one step in the set direction when due, clamped outside calibration
    ensures !s.calibrating ==>
      r.motor.position == (if Due(s, now) then ClampPosition(s.position + s.direction, s.maxPosition)
                           else s.position)
    ensures s.calibrating && sensor ==>
      && r.motor.calibrating && r.motor.position == s.position + (if Due(s, now) then s.direction else 0)
      && r.motor.direction == s.direction && r.motor.stepDelay == s.stepDelay
    // calibration trip
    ensures s.calibrating && !sensor ==>
      && !r.motor.calibrating && r.motor.position == 0
      && r.motor.gotoTarget == -(s.position + (if Due(s, now) then s.direction else 0))
      && r.motor.gotoFrom == 0 && r.motor.gotoMillis == CAL_RETURN_MILLIS
      && (r.motor.gotoActive <==> r.motor.gotoTarget != 0)
      && r.motor.direction == Sign(r.motor.gotoTarget)
    ensures s.calibrating && !sensor && r.motor.gotoTarget != 0 ==>
      && r.motor.stepDelay * Abs(r.motor.gotoTarget) <= CAL_RETURN_MILLIS * 1000
      && CAL_RETURN_MILLIS * 1000 < (r.motor.stepDelay + 1) * Abs(r.motor.gotoTarget)
    // goto bookkeeping
    ensures !s.calibrating && s.gotoActive ==>
      || (r.motor.position == s.gotoTarget && !r.motor.gotoActive && r.motor.direction == 0)
      || (r.motor.gotoActive && MIN_DELAY <= r.motor.stepDelay <= MAX_DELAY)
    ensures !s.calibrating && r.motor.gotoActive ==>
      && 0 < Abs(s.gotoTarget - s.gotoFrom)
      && Abs(s.gotoTarget - r.motor.position) <= Abs(s.gotoTarget - s.gotoFrom)
      && r.motor.stepDelay == EasedDelay(Abs(s.gotoTarget - r.motor.position),
                                         Abs(s.gotoTarget - s.gotoFrom), s.gotoMillis)
    ensures !s.calibrating && s.gotoActive ==> (r.motor.position == s.gotoTarget <==> !r.motor.gotoActive)
    ensures !s.calibrating ==>
      r.motor.gotoTarget == s.gotoTarget && r.motor.gotoFrom == s.gotoFrom && r.motor.gotoMillis == s.gotoMillis
    ensures !s.calibrating && !s.gotoActive ==> !r.motor.gotoActive && r.motor.stepDelay == s.stepDelay
    ensures !s.calibrating ==> !r.motor.calibrating
  {
    var advanced := Advance(s, now);
    PollGotoDelay(s, now, sensor);
    PollReturnDelay(s, now, sensor);
    PollTrip(s, now, sensor);
    PollGotoProgress(s, now, sensor);
    PollGotoEnd(s, now, sensor);
    Outcome(Settle(advanced.motor, sensor), advanced.coils)
  }

  // The Poll lemmas below restate groups of Move's ensures on Settle(Advance(s, now).motor, sensor).
  // They state no separate property; they split Move's proof into smaller obligations.

  /** The return trip that ends a calibration sweep, stated on the state before the timed step. */
  lemma PollTrip(s: Motor, now: u32, sensor: bool)
    requires Valid(s)
    ensures var r := Settle(Advance(s, now).motor, sensor);
      s.calibrating && !sensor ==>
        && !r.calibrating && r.position == 0
        && r.gotoTarget == -(s.position + (if Due(s, now) then s.direction else 0))
        && r.gotoFrom == 0 && r.gotoMillis == CAL_RETURN_MILLIS
        && (r.gotoActive <==> r.gotoTarget != 0)
        && r.direction == Sign(r.gotoTarget)
  {
  }

  /** An active goto ends exactly when the poll leaves the motor on its target. */
  lemma PollGotoEnd(s: Motor, now: u32, sensor: bool)
    requires Valid(s)
    ensures var r := Settle(Advance(s, now).motor, sensor);
      !s.calibrating && s.gotoActive ==> (r.position == s.gotoTarget <==> !r.gotoActive)
  {
  }

  /** An active goto either ends on its target or keeps a delay within the limits. */
  lemma PollGotoProgress(s: Motor, now: u32, sensor: bool)
    requires Valid(s)
    ensures var r := Settle(Advance(s, now).motor, sensor);
      !s.calibrating && s.gotoActive ==>
        || (r.position == s.gotoTarget && !r.gotoActive && r.direction == 0)
        || (r.gotoActive && MIN_DELAY <= r.stepDelay <= MAX_DELAY)
  {
  }

  /** The delay of the return trip that ends a calibration sweep, stated on the state before the timed step. */
  lemma PollReturnDelay(s: Motor, now: u32, sensor: bool)
    requires Valid(s)
    ensures var r := Settle(Advance(s, now).motor, sensor);
      s.calibrating && !sensor && r.gotoTarget != 0 ==>
        && r.stepDelay * Abs(r.gotoTarget) <= CAL_RETURN_MILLIS * 1000
        && CAL_RETURN_MILLIS * 1000 < (r.stepDelay + 1) * Abs(r.gotoTarget)
  {
  }

  /** The poll's goto delay, stated on the state before the timed step. */
  lemma PollGotoDelay(s: Motor, now: u32, sensor: bool)
    requires Valid(s)
    ensures var r := Settle(Advance(s, now).motor, sensor);
      !s.calibrating && r.gotoActive ==>
        && 0 < Abs(s.gotoTarget - s.gotoFrom)
        && Abs(s.gotoTarget - r.position) <= Abs(s.gotoTarget - s.gotoFrom)
        && r.stepDelay == EasedDelay(Abs(s.gotoTarget - r.position),
                                     Abs(s.gotoTarget - s.gotoFrom), s.gotoMillis)
  {
  }

  /**
    The second half of a poll, after the timed micro-step: the calibration
    sensor check, or the goto bookkeeping outside calibration.
   */
  function Settle(m: Motor, sensor: bool): (r: Motor)
    requires ValidMidPoll(m)
    ensures Valid(r)
    ensures m.calibrating && sensor ==> r == m
    ensures m.calibrating && !sensor ==>
      && !r.calibrating && r.position == 0
      && r.gotoTarget == -m.position && r.gotoFrom == 0 && r.gotoMillis == CAL_RETURN_MILLIS
      && (r.gotoActive <==> r.gotoTarget != 0)
      && r.direction == Sign(r.gotoTarget)
      && r.previousStep == m.previousStep
    ensures m.calibrating && !sensor && m.position != 0 ==>
      && r.stepDelay * Abs(m.position) <= CAL_RETURN_MILLIS * 1000
      && CAL_RETURN_MILLIS * 1000 < (r.stepDelay + 1) * Abs(m.position)
    ensures m.calibrating && !sensor && r.gotoTarget != 0 ==>
      && r.stepDelay * Abs(r.gotoTarget) <= CAL_RETURN_MILLIS * 1000
      && CAL_RETURN_MILLIS * 1000 < (r.stepDelay + 1) * Abs(r.gotoTarget)
    ensures r.table == m.table && r.maxPosition == m.maxPosition && r.stepSize == m.stepSize
    ensures !m.calibrating ==>
      && r.position == m.position && !r.calibrating && r.previousStep == m.previousStep
      && r.gotoTarget == m.gotoTarget && r.gotoFrom == m.gotoFrom && r.gotoMillis == m.gotoMillis
    ensures !m.calibrating && m.gotoActive && m.gotoTarget == m.position ==>
      !r.gotoActive && r.direction == 0 && r.(gotoActive := true, direction := m.direction) == m
    ensures !m.calibrating && m.gotoActive && m.gotoTarget != m.position ==>
      && r.gotoActive
      && 0 < Abs(m.gotoTarget - m.gotoFrom)
      && Abs(m.gotoTarget - m.position) <= Abs(m.gotoTarget - m.gotoFrom)
      && r.stepDelay == EasedDelay(Abs(m.gotoTarget - m.position),
                                   Abs(m.gotoTarget - m.gotoFrom), m.gotoMillis)
      && r.(stepDelay := m.stepDelay) == m
    ensures !m.calibrating && !m.gotoActive ==> r == m
    ensures !m.calibrating && !(m.gotoActive && !r.gotoActive) ==> r.direction == m.direction
  {
    if m.calibrating then
      if !sensor then
        GotoPosition(m.(position := 0, calibrating := false), -m.position, CAL_RETURN_MILLIS)
      else
        m
    else if m.gotoActive && m.gotoTarget == m.position then
      m.(gotoActive := false, direction := 0)
    else if m.gotoActive then
      m.(stepDelay := EasedDelay(Abs(m.gotoTarget - m.position), Abs(m.gotoTarget - m.gotoFrom), m.gotoMillis))
    else
      m
  }

}

=== FILE: scenarios.dfy ===
/**
  Properties of the controller over sequences of calls: the invariant along
  any command sequence from construction, the homing sweep, goto and run
  moves driven by polls that arrive as soon as a step is due, the step
  round trip, and the two places where the source's arithmetic goes wrong.
 */
module Scenarios {

  import opened Config
  import opened Coils
  import opened Ease
  import opened StepperMotor2

  /** One call a host can make on the controller. */
  datatype Command =
    | RunCmd(speedDps: int)
    | StepCmd(direction: int)
    | StopCmd
    | GotoCmd(target: int, millis: u32)
    | RecalCmd
    | Poll(now: u32, sensor: bool)

  function Apply(s: Motor, c: Command): (r: Motor)
    requires Valid(s)
    ensures Valid(r)
  {
    match c
    case RunCmd(speed) => Run(s, speed)
    case StepCmd(direction) => Step(s, direction).motor
    case StopCmd => Stop(s)
    case GotoCmd(target, millis) => GotoPosition(s, target, millis)
    case RecalCmd => Recal(s)
    case Poll(now, sensor) => Move(s, now, sensor).motor
  }

  /** The state after a sequence of calls; every state on the way is Valid. */
  function ApplyAll(s: Motor, cs: seq<Command>): (r: Motor)
    requires Valid(s)
    ensures Valid(r)
    decreases |cs|
  {
    if |cs| == 0 then s else ApplyAll(Apply(s, cs[0]), cs[1..])
  }

  /**
    Whatever the host does after construction, once calibration has ended
    the position lies within the travel range.
   */
  lemma HomedPositionInRange(maxAngleDeg: nat, stepStyle: int, cs: seq<Command>)
    requires maxAngleDeg <= MAX_ANGLE
    ensures var r := ApplyAll(Init(maxAngleDeg, stepStyle), cs);
      && r.maxPosition == MaxPositionFor(|TableFor(stepStyle)|, maxAngleDeg)
      && r.table == TableFor(stepStyle)
      && (!IsCalMode(r) ==> 0 <= GetPosition(r) <= r.maxPosition)
  {
    TableSelection(stepStyle);
    ConfigFixed(Init(maxAngleDeg, stepStyle), cs);
  }

  /** The configuration set by the constructor (travel limit, step size, coil table) never changes. */
  lemma {:induction false} ConfigFixed(s: Motor, cs: seq<Command>)
    requires Valid(s)
    ensures var r := ApplyAll(s, cs);
      r.maxPosition == s.maxPosition && r.table == s.table && r.stepSize == s.stepSize
    decreases |cs|
  {
    if |cs| > 0 {
      ConfigFixed(Apply(s, cs[0]), cs[1..]);
    }
  }

  /** The first clock reading at which a step is due. */
  function PromptTime(s: Motor): u32 {
    (s.previousStep + s.stepDelay + 1) % U32
  }

  lemma PromptIsDue(s: Motor)
    requires s.stepDelay + 1 < U32
    ensures Elapsed(PromptTime(s), s.previousStep) == s.stepDelay + 1
    ensures s.direction != 0 ==> Due(s, PromptTime(s))
  {
    var x := s.previousStep + s.stepDelay + 1;
    if x >= U32 {
      assert PromptTime(s) == x - U32;
    }
  }

  /** k polls, each arriving at the first moment a step is due, with a fixed sensor level. */
  function PromptPolls(s: Motor, k: nat, sensor: bool): (r: Motor)
    requires Valid(s)
    ensures Valid(r)
    decreases k
  {
    if k == 0 then s else PromptPolls(Move(s, PromptTime(s), sensor).motor, k - 1, sensor)
  }

  /** While the sensor stays high the homing sweep moves one micro-step toward it per due poll. */
  lemma {:induction false} CalibrationSweep(s: Motor, k: nat)
    requires Valid(s) && s.calibrating && s.direction == CAL_DIRECTION
    requires s.stepDelay + 1 < U32
    ensures var r := PromptPolls(s, k, true);
      && r.calibrating && r.direction == CAL_DIRECTION
      && r.position == s.position - k && r.stepDelay == s.stepDelay
    decreases k
  {
    if k > 0 {
      PromptIsDue(s);
      var next := Move(s, PromptTime(s), true).motor;
      CalibrationSweep(next, k - 1);
    }
  }

  /**
    Coil-index finding, as written: the sweep that starts every controller
    reaches position -n after n due polls, where the source's index formula
    selects entry n, one past the end of the table.
   */
  lemma SweepReachesTableOverrun(maxAngleDeg: nat, stepStyle: int)
    requires maxAngleDeg <= MAX_ANGLE
    ensures var s := Init(maxAngleDeg, stepStyle);
      var n := |s.table|;
      && PromptPolls(s, n, true).position == -n
      && CoilIndexAsWritten(-n, n) == n
      && CoilIndex(-n, n) == 0
  {
    var s := Init(maxAngleDeg, stepStyle);
    ConstructorFigures();
    assert s.stepSize <= 175781;
    CalibrationSweep(s, |s.table|);
  }

  /**
    The coil-index overrun can only happen during calibration: once homed,
    the position a step or poll lands on (one micro-step either way from a
    position in range) gets the same index from the source's formula as
    from the corrected one.
   */
  lemma OverrunOnlyWhileCalibrating(s: Motor, d: int)
    requires Valid(s) && -1 <= d <= 1
    ensures CoilIndexAsWritten(s.position + d, |s.table|) == |s.table| ==> s.calibrating
    ensures !s.calibrating ==>
      CoilIndexAsWritten(s.position + d, |s.table|) == CoilIndex(s.position + d, |s.table|)
  {
    var n := |s.table|;
    CoilIndexAsWrittenRange(s.position + d, n);
    CoilIndexCorrects(s.position + d, n);
  }

  /**
    Ease-curve finding, as written: right after a goto, a poll that comes
    before the first step is due evaluates the curve with p == c, where the
    speed term is 0, so sineEaseInOut's division at line 319 has a zero
    divisor. The model stores the limit, MAX_DELAY, there instead.
   */
  lemma GotoFirstPollDividesByZero(s: Motor, target: int, millis: u32, now: u32, sensor: bool)
    requires Valid(s) && !s.calibrating && target != s.position
    requires !Due(GotoPosition(s, target, millis), now)
    ensures var g := GotoPosition(s, target, millis);
      var p := Abs(g.gotoTarget - g.position);
      var c := Abs(g.gotoTarget - g.gotoFrom);
      && 0 < p == c
      && !EaseDefined(p, c)
      && Move(g, now, sensor).motor.stepDelay == MAX_DELAY
  {
    var g := GotoPosition(s, target, millis);
    var p := Abs(g.gotoTarget - g.position);
    SpeedTermZero(p, p);
  }

  /**
    A goto to a target strictly inside the travel range, driven by due polls,
    arrives after exactly as many polls as it has steps to go, and ends there
    with the motor stopped.
   */
  lemma {:induction false} GotoReachesTarget(s: Motor, k: nat)
    requires Valid(s) && !s.calibrating && s.gotoActive
    requires s.direction == Sign(s.gotoTarget - s.position)
    requires 0 < s.gotoTarget < s.maxPosition
    requires s.stepDelay + 1 < U32
    requires k == Abs(s.gotoTarget - s.position) && k > 0
    ensures var r := PromptPolls(s, k, true);
      && r.position == s.gotoTarget && !r.gotoActive && r.direction == 0
      && !r.calibrating
    decreases k
  {
    PromptIsDue(s);
    var next := Move(s, PromptTime(s), true).motor;
    assert next.position == s.position + s.direction;
    if k > 1 {
      assert next.gotoActive && MIN_DELAY <= next.stepDelay <= MAX_DELAY;
      GotoReachesTarget(next, k - 1);
    }
  }

  /** Continuous motion toward the upper edge moves one micro-step per due poll, then stops there. */
  lemma {:induction false} RunToUpperEdge(s: Motor, j: nat)
    requires Valid(s) && !s.calibrating && !s.gotoActive && s.direction == 1
    requires s.stepDelay + 1 < U32
    requires s.position < s.maxPosition
    requires j <= s.maxPosition - s.position
    ensures var r := PromptPolls(s, j, true);
      && r.position == s.position + j
      && r.direction == (if s.position + j < s.maxPosition then 1 else 0)
      && !r.gotoActive && !r.calibrating
    decreases j
  {
    if j > 0 {
      PromptIsDue(s);
      var next := Move(s, PromptTime(s), true).motor;
      assert next.position == s.position + 1;
      if j > 1 {
        RunToUpperEdge(next, j - 1);
      }
    }
  }

  /**
    Construct for 180 degrees of full-step travel, let the sensor trip on the
    first poll, then run at +90 degrees per second: the travel limit is 1024
    micro-steps, calibration ends at position 0, and 1024 due polls later the
    motor stands at 1024 with its direction cleared.
   */
  lemma RunScenario()
    ensures var s0 := Init(180, FULLSTEP);
      var s1 := Move(s0, 0, false).motor;
      var s2 := Run(s1, 90);
      var s3 := PromptPolls(s2, 1024, true);
      && s0.maxPosition == 1024
      && !IsCalMode(s1) && GetPosition(s1) == 0
      && s2.direction == 1 && s2.stepDelay > 0
      && GetPosition(s3) == 1024 && s3.direction == 0
  {
    var s0 := Init(180, FULLSTEP);
    ConstructorFigures();
    var s1 := Move(s0, 0, false).motor;
    assert !Due(s0, 0);
    var s2 := Run(s1, 90);
    assert s2.stepDelay == 175781 / 90;
    RunToUpperEdge(s2, 1024);
  }

  /** gotoPosition(500, 2000) from home reaches exactly 500 and ends the goto. */
  lemma GotoScenario(s: Motor)
    requires Valid(s) && !s.calibrating && s.position == 0 && s.maxPosition > 500
    ensures var r := PromptPolls(GotoPosition(s, 500, 2000), 500, true);
      GetPosition(r) == 500 && !r.gotoActive && r.direction == 0
  {
    var g := GotoPosition(s, 500, 2000);
    assert g.stepDelay == 4000;
    GotoReachesTarget(g, 500);
  }

  /**
    step(+1) followed by step(-1) returns to the starting position exactly
    when the first step was not swallowed by the upper edge.
   */
  lemma StepRoundTrip(s: Motor)
    requires Valid(s) && !s.calibrating
    ensures Step(Step(s, 1).motor, -1).motor.position == s.position
            <==> s.position < s.maxPosition || s.maxPosition == 0
  {
  }

  /** A goto to the current position is over at once: no direction, no active goto, no poll needed. */
  lemma GotoToHereIsDone(s: Motor, millis: u32, now: u32)
    requires Valid(s)
    ensures var g := GotoPosition(s, s.position, millis);
      !g.gotoActive && g.direction == 0 && !Due(g, now)
  {
  }

}

=== FILE: sqrt.dfy ===
/**
  The integer square root used by the ease curve: a reference definition of
  floor(sqrt(x)) and the digit-by-digit (two bits per round) algorithm of
  StepperMotor2::isqrt, proved to agree with it on every 32-bit input.
 */
module IntSqrt {

  import opened Config

  /** floor(sqrt(x)), defined by counting up. */
  function Sqrt(x: nat): (r: nat)
    ensures r * r <= x < (r + 1) * (r + 1)
  {
    if x == 0 then 0
    else
      var r := Sqrt(x - 1);
      if (r + 1) * (r + 1) <= x then r + 1 else r
  }

  /** The square root is the only number whose square brackets x this way. */
  lemma SqrtUnique(x: nat, r: nat)
    requires r * r <= x < (r + 1) * (r + 1)
    ensures r == Sqrt(x)
  {
    var s := Sqrt(x);
    if r < s {
      SquareMono(r + 1, s);
    } else if s < r {
      SquareMono(s + 1, r);
    }
  }

  lemma SquareMono(a: nat, b: nat)
    requires a <= b
    ensures a * a <= b * b
  {
    assert a * a <= a * b <= b * b;
  }

  /** The square root of anything up to n * n is at most n. */
  lemma SqrtAtMost(x: nat, n: nat)
    requires x <= n * n
    ensures Sqrt(x) <= n
  {
  }

  /** The root is zero exactly for input zero. */
  lemma SqrtZero(x: nat)
    ensures Sqrt(x) == 0 <==> x == 0
  {
  }

  /**
    Digit-by-digit square root over 32-bit values. `one` starts at 2^30, drops
    to the largest power of four not above x, and then walks down the bit
    pairs; shifts are written as divisions by 2 and 4.
   */
  method Isqrt(x: u32) returns (r: nat)
    ensures r * r <= x < (r + 1) * (r + 1)
    ensures r == Sqrt(x)
  {
    var op: int := x;
    var res: int := 0;
    var one: int;
    // Ghost bookkeeping: one == 4^k (k == -1 once one is 0) and unit == 2^(k+1);
    // root is the part of the answer fixed so far.
    ghost var k: int;
    ghost var unit: nat;
    ghost var root: nat := 0;
    one, k, unit := FirstDigit(x);

    while one != 0
      invariant -1 <= k <= 15
      invariant k >= 0 ==> one == Pow2(k) * Pow2(k) && unit == 2 * Pow2(k)
      invariant k == -1 ==> one == 0 && unit == 1
      invariant Stage(x, op, res, root, unit)
      invariant one >= 0
      decreases one
    {
      ghost var half := Pow2(k);
      DigitStep(x, op, res, root, half);
      if op >= res + one {
        op := op - (res + one);
        res := res + 2 * one;
        root := root + half;
      }
      res := res / 2;
      if k >= 1 {
        Pow2Step(k);
      }
      one := one / 4;
      unit := half;
      k := k - 1;
    }
    assert unit == 1 && res == root * 1;
    r := res;
    SqrtUnique(x, r);
  }

  /**
    The first loop of isqrt: starting from 2^30, the second-highest bit of a
    32-bit word, drop `one` by factors of four until it is not above x.
   */
  method FirstDigit(x: u32) returns (one: int, ghost k: int, ghost unit: nat)
    ensures -1 <= k <= 15
    ensures k >= 0 ==> one == Pow2(k) * Pow2(k) && unit == 2 * Pow2(k)
    ensures k == -1 ==> one == 0 && unit == 1
    ensures one <= x < unit * unit
    ensures x == 0 <==> one == 0
    ensures x > 0 ==> one <= x < 4 * one
  {
    one := 0x4000_0000;
    k := 15;
    unit := 2 * Pow2(15);
    assert Pow2(15) == 0x8000;
    while one > x
      invariant -1 <= k <= 15
      invariant k >= 0 ==> one == Pow2(k) * Pow2(k) && unit == 2 * Pow2(k)
      invariant k == -1 ==> one == 0 && unit == 1
      invariant x < unit * unit
      decreases one
    {
      if k >= 1 {
        Pow2Step(k);
      }
      unit := if k >= 1 then Pow2(k) else 1;
      one := one / 4;
      k := k - 1;
    }
    if k >= 0 {
      assert unit * unit == 4 * one;
    }
  }

  /**
    Loop state of the digit-by-digit root: root is the answer fixed so far,
    op the remainder x - root^2, res the root scaled by the unit of the next
    undecided bit pair, and the undecided bits cannot carry the root past x.
   */
  ghost predicate Stage(x: int, op: int, res: int, root: int, unit: int) {
    && op == x - root * root
    && op >= 0
    && res == root * unit
    && x < (root + unit) * (root + unit)
  }

  /** One round of the digit-by-digit loop: try to add the next root bit, half. */
  lemma DigitStep(x: int, op: int, res: int, root: int, half: int)
    requires Stage(x, op, res, root, 2 * half)
    ensures op >= res + half * half ==>
      Stage(x, op - (res + half * half), (res + 2 * (half * half)) / 2, root + half, half)
    ensures op < res + half * half ==> Stage(x, op, res / 2, root, half)
  {
    assert (root + half) * (root + half) == root * root + res + half * half;
    assert res + 2 * (half * half) == 2 * ((root + half) * half);
    assert res == 2 * (root * half);
    assert root + half + half == root + 2 * half;
  }

  lemma Pow2Step(k: nat)
    requires k >= 1
    ensures Pow2(k) == 2 * Pow2(k - 1)
    ensures Pow2(k) * Pow2(k) / 4 == Pow2(k - 1) * Pow2(k - 1)
  {
    var h := Pow2(k - 1);
    assert Pow2(k) * Pow2(k) == 4 * (h * h);
  }

}

=== FILE: wrappers.dfy ===
/** The optional-value datatype used for "maybe a coil write happened". */
module Wrappers {

  datatype Option<+T> = None | Some(value: T)

}
